=== FILE: README.md ===
# CORD-19 metadata dashboard: the row pipeline in Dafny

This project models the data pipeline of a small Streamlit dashboard over the
CORD-19 `metadata.csv` table.

**Loading and cleaning (`load_and_clean_data`, `utils.py`).**
- If `download_dataset()` returns False, no table is produced.
- Otherwise, rows missing a `title` or a `publish_time` are dropped, and their
  number is printed as "Dropped".
- `publish_time` is parsed with coercion, and rows whose date did not parse are
  dropped in a second pass.
- Two columns are derived:
  - `year`, the year of the parsed date;
  - `abstract_word_count`, the number of words `str.split()` finds in the
    abstract. A missing abstract counts as `''`.

**The panels (`app.py`).**
- Every panel applies the same inclusive filter on `year`, taken from the
  sidebar slider. The slider defaults to the table's own minimum and maximum
  year.
- Publications per year: `value_counts().sort_index()`.
- Top journals: `value_counts().head(10)`.
- Distribution by source: `value_counts()`.
- Word cloud: the input text, which is the titles joined with single spaces.
- The 20-row sample and the total count.
- `main` ties these together:
  - a load that returns None (`download_dataset()` returned False) shows
    "Failed to load data";
  - an empty table makes `int(nan)` raise, which the catch-all reports as
    "An error occurred" before any panel;
  - `WordCloud(...).generate` raises when the joined titles hold no word, for
    example when the range selects no rows because the years have a gap. The
    yearly and journal charts are already drawn, and the catch-all then shows
    the error instead of the remaining panels;
  - otherwise all panels, the sample and the total are shown.

**Modules.**
- `Records`: the row types at each stage.
  - `RawRow`: as read from the CSV.
  - `ParsedRow`: after date coercion.
  - `Row`: cleaned, with `year` and `abstract_word_count`.
- `Seqs`: order-preserving subsequences, given as increasing index embeddings.
- `Text`: Python's `str.split()` with no separator, over the characters
  `str.isspace()` accepts, and `' '.join`.
- `Counting`: `Series.value_counts()` and `Series.sort_index()`, over count
  tables `seq<(K, nat)>`.
- `Cleaning`: `load_and_clean_data`.
  - The method `LoadAndClean` runs the stages in the code's order: drop, count,
    parse, drop again, add columns.
  - It is proved equal to a one-pass reference, `CleanTable`, and the
    properties are proved about that reference.
- `Views`: the year filter, the four panels, the sample and total, and `main`.

**Parameters standing in for external behaviour.**
- The date parser is a parameter `parse: string -> Option<Date>`. `None` plays
  the part of `NaT`.
- The outcome of `download_dataset()` is the boolean `downloaded`.
- The slider position is `selection`, where `None` means the default span.
- Texts the WordCloud library rejects although they hold words are named by a
  parameter `rejects`, for example texts made only of stop words or digits.

**Two behaviours of the code to note:**
- `value_counts()` uses its default `dropna=True`, so rows with a missing
  journal or source form no group.
- The printed "Dropped" count covers the first pass only. Rows lost to
  unparseable dates are not included in it.

## Model

| member | source | states |
|---|---|---|
| Cleaning.LoadAndClean | utils.py:37-56 | no table exactly when `download_dataset()` returned False; otherwise the table is `CleanTable(raw, parse)` and the reported count is the rows missing a title or a publish_time |
| Cleaning.DropMissing | utils.py:44-46 | rows kept plus rows lacking a title or publish_time add up to the input length, so `original_size - len(df)` is the number of rows missing either |
| Cleaning.DropMissingKeeps | utils.py:45 | a row is in the result exactly when it is in the input and has both a title and a publish_time |
| Cleaning.KeptByFirstPass | utils.py:45 | a row with a title and a publish_time survives the first drop pass |
| Cleaning.DropMissingIsSubsequence | utils.py:45 | the first drop pass keeps the surviving rows in their original order |
| Cleaning.ParseTimes | utils.py:49 | date coercion keeps the row count, and row i becomes row i with its publish_time parsed (missing or unparseable gives no date) |
| Cleaning.DropUnparsed | utils.py:50 | the second drop pass is no longer than its input, and every row it keeps has a parsed date; `DropUnparsedKeeps` gives which rows |
| Cleaning.DropUnparsedKeeps | utils.py:50 | a row is in the result exactly when it is in the input and its publish_time parsed |
| Cleaning.DropUnparsedIsSubsequence | utils.py:50 | the second drop pass keeps the surviving rows in their original order |
| Cleaning.WithDerived | utils.py:53-56 | a cleaned row keeps the title, the parsed date and the abstract, journal and source columns; `year` is the year of its date; `abstract_word_count` is the number of maximal non-whitespace runs of the abstract, with a missing abstract counted as `''` |
| Cleaning.AddColumns | utils.py:53-56 | adding the two columns keeps the row count, and row i becomes `WithDerived` of row i; `StagesMatchCleanTable` and `CleanLineage` give the column values of the cleaned table |
| Cleaning.StagesComplete | utils.py:45-50 | after both drop passes every row has a title and a parsed publish_time, so the derived columns are defined |
| Cleaning.StagesMatchCleanTable | utils.py:43-56 | the staged pipeline (drop, parse, drop, add year and word count) equals the one-pass reference table |
| Cleaning.CleanLineage | utils.py:43-56 | the cleaned rows come from strictly increasing raw positions; each has the raw title, the parsed date, `year` equal to that date's year, the word count of its abstract (missing counts as empty) and the raw abstract, journal and source; every raw row with a title, a publish_time and a parseable date is among them |
| Cleaning.CleanTableAppend | utils.py:45-56 | for one parser (one `to_datetime` call), the cleaned table of two tables put together is the two cleaned tables put together |
| Cleaning.UnparseableRowDropped | utils.py:49-50 | a row whose publish_time is present but does not parse survives the first pass, yet contributes nothing to the cleaned table |
| Cleaning.DroppedCountExcludesUnparsed | utils.py:44-50 | rows dropped by the first pass, rows dropped for unparseable dates and rows kept add up to the input length; the printed count is only the first of these |
| Seqs.SubsequenceShorter | utils.py:45 | a filtered table is no longer than its input and holds only its rows |
| Text.Split | utils.py:56 | `str.split()` yields non-empty words without whitespace |
| Text.WordCount | utils.py:56 | `len(x.split())` is the number of maximal runs of non-whitespace characters |
| Text.WordCountZeroIffBlank | utils.py:56 | the word count is 0 exactly when the text is empty or all whitespace |
| Text.SplitKeepsText | utils.py:56 | the words, put together, are exactly the non-whitespace characters of the text, in order |
| Text.SplitAroundSpace | app.py:35 | splitting text glued around a whitespace character splits each side separately |
| Text.JoinWithSpace | app.py:35 | `' '.join(xs)` begins with the first part, and its length is the parts' total length plus one space between each two neighbours; `SplitJoin` gives its words |
| Text.SplitJoin | app.py:35 | splitting `' '.join(xs)` yields the words of each element of xs in turn |
| Views.FilterByYear | app.py:85 | a row is selected exactly when it is in the table and `lo <= year <= hi`, both ends inclusive |
| Views.FilterByYearIsSubsequence | app.py:85 | the selection keeps the table's row order |
| Views.FilterByYearCounts | app.py:85 | every occurrence of an in-range row is kept, and no out-of-range row is |
| Views.FilterKeepsAllInRange | app.py:85 | when every year lies in the range, the selection is the whole table |
| Views.SingleYearFilter | app.py:85 | the range [y, y] selects exactly as many rows as have year y |
| Views.YearSpan | app.py:69 | the slider bounds are the least and greatest year in the table; there are none for an empty table |
| Views.FullSpanKeepsAll | app.py:69-70 | the slider's default range selects the whole table unchanged |
| Views.PublicationsPerYear | app.py:14 | each year of the selection appears once with its number of rows and no other year appears; years are strictly ascending and lie in the range; the counts sum to the selection's size |
| Views.SelectedYearsInRange | app.py:14 | every year of the selected rows lies in the range |
| Views.YearBarIsSingleYearSelection | app.py:14 | each yearly bar equals the number of rows a one-year selection of that year shows |
| Views.TopJournals | app.py:24-25 | the result has at most 10 distinct journals with their exact non-zero counts, in non-increasing count order; a journal left out is counted no more often than any listed one and is left out only when the list is full |
| Views.SourceDistribution | app.py:43-44 | every source present in the selection appears once with its exact count, in non-increasing count order, with no cap; the counts plus the rows without a source make up the selection |
| Views.WordCloudText | app.py:34-35 | the word-cloud text has as words the words of each selected title in turn, so no two titles run together |
| Views.SampleAndTotal | app.py:85-90 | the total is the selection's size; the sample is the first min(20, total) selected rows, in table order, all in range |
| Views.SelectedRange | app.py:69-70 | the slider's range is the chosen one when the slider was moved; at its default position it is a non-empty range that selects the whole table |
| Views.CloudRaises | app.py:36 | `WordCloud.generate` raises on every text that is empty or all whitespace |
| Views.Dashboard | app.py:63-94 | "Failed to load data" exactly when loading returned nothing; the error before any panel exactly for an empty table; otherwise, for the selected range (the chosen one or the table's year span), the page stops after the yearly and journal charts exactly when WordCloud raises on the joined titles, and every panel shown is that range's `PublicationsPerYear`, `TopJournals`, `WordCloudText`, `SourceDistribution` and `SampleAndTotal`; at the default slider position the yearly counts and the total cover the whole table |
| Views.EmptySelectionStopsAtCloud | app.py:33-36 | a range that selects no rows gives empty yearly and journal charts and then the word-cloud error, whatever else the library rejects |
| Counting.Tally | app.py:14 | each distinct value appears once with its number of occurrences; absent values do not appear; the counts sum to the input length |
| Counting.CountValues | app.py:14 | `value_counts()` on a column with no missing values is a count table of it, in non-increasing count order |
| Counting.SortByCount | app.py:44 | reordering by count keeps the same entries and their total, in non-increasing count order |
| Counting.SortByCountDistinct | app.py:44 | reordering by count keeps the keys distinct |
| Counting.SortByKey | app.py:14 | `sort_index()` keeps the same entries (as a multiset) and so their total; `SortByKeySorted` gives the ascending order |
| Counting.SortByKeySorted | app.py:14 | `sort_index()` keeps the entries and their total and puts distinct keys in strictly ascending order |
| Counting.InsertByKeyKeeps | app.py:14 | one insertion step of `sort_index()` adds the entry and loses none |
| Counting.InsertByKeySorted | app.py:14 | inserting a new key into an ascending table keeps it ascending |
| Counting.Present | app.py:44 | dropping missing values keeps each present value as often as it occurs |
| Counting.PresentLength | app.py:44 | present values plus missing ones make up the column |
| Counting.ValueCounts | app.py:44 | `value_counts()` with `dropna=True`: each present value once, with its exact non-zero count; every present value listed; non-increasing counts; missing values form no group |
| Counting.TopCounts | app.py:25 | `head(n)` of `value_counts()`: at most n distinct values with exact counts, non-increasing; a value left out is counted no more often than any listed one and is left out only when the head is full |
| Counting.HeadOfCounts | app.py:25 | the head of a `value_counts()` table keeps its distinct keys, exact counts and order, and leaves out only values counted no more often than every listed one |

## Left out

- The CSV read (`pd.read_csv`, utils.py:41) is not modelled. The raw table is an input.
- `download_dataset` (utils.py:9-30) is only a boolean input. It launches a
  subprocess and checks for the file on disk.
- `download_metadata.py` and `test_download.py` are not part of this model:
  - they cover Kaggle authentication, the network download and archive
    extraction;
  - they include status prints with no assertions;
  - this also leaves out the one-line choice of the archive member whose name
    ends in `metadata.csv`.
- pandas' date parsing, including its column-wide format inference, is the
  parameter `parse`. One parameter value is one call of `pd.to_datetime`. A date
  keeps year, month and day, with no time of day.
- The average abstract word count (app.py:91) is left out. It is a
  floating-point mean. An empty selection never reaches it, because the word
  cloud raises first (app.py:36).
- Rendering is left out: plots, the WordCloud image, Streamlit widgets, the
  prints of shape and year range (utils.py:58-59), and caching
  (`st.cache_data`, app.py:9).
- Views.Dashboard: the catch-all (app.py:93-95) is modelled for two exceptions:
  - `int(nan)` on an empty table (app.py:69);
  - `WordCloud.generate` on the joined titles (app.py:36). The model fixes that
    it raises on text without words. Which other texts its tokeniser and stop
    words reject is the parameter `rejects`.
  An exception raised by loading itself is not modelled. It also goes to the
  catch-all ("An error occurred", not "Failed to load data"). The usual case is
  `pd.read_csv` (utils.py:41) on a missing `metadata.csv`: the download script
  exits with status 0 after its handled failures, so `download_dataset()`
  returns True without the file.
  The plotting calls are taken not to raise, including on an empty selection.
  The page records which panels were drawn before the error, not the error text.
- Counting.ValueCounts: the order of equal counts is left unspecified, because
  pandas promises no tie order. Any order of tied entries satisfies the
  contract.
- Counting.TopCounts: for the same reason, which of several equally counted
  values make the head is unspecified.

=== FILE: cleaning.dfy ===
/**
 * The cleaning pass of load_and_clean_data (utils.py): two separate drop passes,
 * date conversion, and the derived year and abstract_word_count columns.
 */
module Cleaning {
  import opened Records
  import opened Seqs
  import opened Text

  /** The row has both of the columns the first drop pass requires. */
  predicate HasTitleAndTime(r: RawRow) {
    r.title.Some? && r.publishTime.Some?
  }

  /** Number of rows lacking a title or a publish_time. */
  function MissingCount(raw: seq<RawRow>): nat
    decreases |raw|
  {
    if raw == [] then 0
    else MissingCount(raw[..|raw| - 1]) + (if HasTitleAndTime(raw[|raw| - 1]) then 0 else 1)
  }

  /** df.dropna(subset=['title', 'publish_time']). */
  function DropMissing(raw: seq<RawRow>): (df: seq<RawRow>)
    ensures |df| + MissingCount(raw) == |raw|
    decreases |raw|
  {
    if raw == [] then []
    else
      var p, x := raw[..|raw| - 1], raw[|raw| - 1];
      assert raw == p + [x];
      DropMissing(p) + (if HasTitleAndTime(x) then [x] else [])
  }

  /** The first drop pass keeps exactly the rows having both a title and a publish_time. */
  lemma {:induction false} DropMissingKeeps(raw: seq<RawRow>)
    ensures forall x :: x in DropMissing(raw) <==> x in raw && HasTitleAndTime(x)
    decreases |raw|
  {
    if raw != [] {
      var p, x := raw[..|raw| - 1], raw[|raw| - 1];
      assert raw == p + [x];
      DropMissingKeeps(p);
    }
  }

  /** A row with a title and a publish_time survives the first drop pass. */
  lemma KeptByFirstPass(raw: seq<RawRow>, i: nat)
    requires i < |raw| && HasTitleAndTime(raw[i])
    ensures raw[i] in DropMissing(raw)
  {
    DropMissingKeeps(raw);
    assert raw[i] in raw;
  }

  /** The first drop pass keeps the surviving rows in their original order. */
  lemma {:induction false} DropMissingIsSubsequence(raw: seq<RawRow>)
    ensures IsSubsequence(DropMissing(raw), raw)
    decreases |raw|
  {
    if raw == [] {
      SubsequenceOfEmpty(raw);
    } else {
      var p, x := raw[..|raw| - 1], raw[|raw| - 1];
      assert raw == p + [x];
      DropMissingIsSubsequence(p);
      SubsequenceSnoc(DropMissing(p), p, x, HasTitleAndTime(x));
    }
  }

  /** pd.to_datetime(errors='coerce') on one row: a missing or unparseable time becomes NaT. */
  function ParseRow(r: RawRow, parse: string -> Option<Date>): ParsedRow {
    var time := if r.publishTime.Some? then parse(r.publishTime.value) else None;
    ParsedRow(r.title, time, r.abstractText, r.journal, r.source)
  }

  /** df['publish_time'] = pd.to_datetime(df['publish_time'], errors='coerce'). */
  function ParseTimes(df: seq<RawRow>, parse: string -> Option<Date>): (out: seq<ParsedRow>)
    ensures |out| == |df|
    ensures forall i :: 0 <= i < |df| ==> out[i] == ParseRow(df[i], parse)
    decreases |df|
  {
    if df == [] then [] else ParseTimes(df[..|df| - 1], parse) + [ParseRow(df[|df| - 1], parse)]
  }

  /** df.dropna(subset=['publish_time']) after conversion: the second drop pass. */
  function DropUnparsed(rows: seq<ParsedRow>): (out: seq<ParsedRow>)
    ensures |out| <= |rows|
    ensures forall i :: 0 <= i < |out| ==> out[i].publishTime.Some?
    decreases |rows|
  {
    if rows == [] then []
    else
      var p, x := rows[..|rows| - 1], rows[|rows| - 1];
      assert rows == p + [x];
      DropUnparsed(p) + (if x.publishTime.Some? then [x] else [])
  }

  /** The second drop pass keeps exactly the rows whose date parsed. */
  lemma {:induction false} DropUnparsedKeeps(rows: seq<ParsedRow>)
    ensures forall x :: x in DropUnparsed(rows) <==> x in rows && x.publishTime.Some?
    decreases |rows|
  {
    if rows != [] {
      var p, x := rows[..|rows| - 1], rows[|rows| - 1];
      assert rows == p + [x];
      DropUnparsedKeeps(p);
    }
  }

  /** The second drop pass keeps the surviving rows in their original order. */
  lemma {:induction false} DropUnparsedIsSubsequence(rows: seq<ParsedRow>)
    ensures IsSubsequence(DropUnparsed(rows), rows)
    decreases |rows|
  {
    if rows == [] {
      SubsequenceOfEmpty(rows);
    } else {
      var p, x := rows[..|rows| - 1], rows[|rows| - 1];
      assert rows == p + [x];
      DropUnparsedIsSubsequence(p);
      SubsequenceSnoc(DropUnparsed(p), p, x, x.publishTime.Some?);
    }
  }

  /** The row carries everything the derived columns need. */
  predicate Complete(r: ParsedRow) {
    r.title.Some? && r.publishTime.Some?
  }

  /** df['year'] and df['abstract_word_count'] for one row; a missing abstract counts as ''. */
  function WithDerived(r: ParsedRow): (w: Row)
    requires Complete(r)
    ensures w.title == r.title.value && w.publishTime == r.publishTime.value
    ensures w.abstractText == r.abstractText && w.journal == r.journal && w.source == r.source
    ensures w.year == w.publishTime.year
    ensures w.abstractWordCount == RunCount(r.abstractText.GetOr(""))
  {
    var date := r.publishTime.value;
    Row(r.title.value, date, r.abstractText, r.journal, r.source,
        date.year, WordCount(r.abstractText.GetOr("")))
  }

  /** Adds the year and abstract_word_count columns. */
  function AddColumns(rows: seq<ParsedRow>): (out: seq<Row>)
    requires forall i :: 0 <= i < |rows| ==> Complete(rows[i])
    ensures |out| == |rows|
    ensures forall i {:trigger out[i]} :: 0 <= i < |rows| ==> out[i] == WithDerived(rows[i])
    decreases |rows|
  {
    if rows == [] then [] else AddColumns(rows[..|rows| - 1]) + [WithDerived(rows[|rows| - 1])]
  }

  /** A raw row survives cleaning: it has a title and a publish_time, and the time parses. */
  predicate Keep(r: RawRow, parse: string -> Option<Date>) {
    HasTitleAndTime(r) && parse(r.publishTime.value).Some?
  }

  /** The cleaned row a surviving raw row becomes. */
  function Derive(r: RawRow, parse: string -> Option<Date>): Row
    requires Keep(r, parse)
  {
    WithDerived(ParseRow(r, parse))
  }

  /** row is what cleaning makes of r: same text columns, parsed date, derived year and word count. */
  ghost predicate RowFrom(row: Row, r: RawRow, parse: string -> Option<Date>) {
    && r.title == Some(row.title)
    && r.publishTime.Some? && parse(r.publishTime.value) == Some(row.publishTime)
    && row.year == row.publishTime.year
    && row.abstractWordCount == WordCount(r.abstractText.GetOr(""))
    && row.abstractText == r.abstractText && row.journal == r.journal && row.source == r.source
  }

  /** The cleaned table in one pass: the surviving rows, in order, each with its derived columns. */
  function CleanTable(raw: seq<RawRow>, parse: string -> Option<Date>): seq<Row>
    decreases |raw|
  {
    if raw == [] then []
    else
      var p, x := raw[..|raw| - 1], raw[|raw| - 1];
      CleanTable(p, parse) + (if Keep(x, parse) then [Derive(x, parse)] else [])
  }

  /** Number of rows that pass the first drop but whose publish_time does not parse. */
  function UnparsedCount(raw: seq<RawRow>, parse: string -> Option<Date>): nat
    decreases |raw|
  {
    if raw == [] then 0
    else
      var x := raw[|raw| - 1];
      UnparsedCount(raw[..|raw| - 1], parse) + (if HasTitleAndTime(x) && !Keep(x, parse) then 1 else 0)
  }

  /** The outcome of load_and_clean_data: the table and the printed "Dropped" count. */
  datatype Cleaned = Cleaned(table: seq<Row>, dropped: nat)

  /** After both drop passes every row has a title and a parsed publish_time. */
  lemma StagesComplete(raw: seq<RawRow>, parse: string -> Option<Date>)
    ensures forall i :: 0 <= i < |DropUnparsed(ParseTimes(DropMissing(raw), parse))| ==>
      Complete(DropUnparsed(ParseTimes(DropMissing(raw), parse))[i])
  {
    var df := DropMissing(raw);
    var parsed := ParseTimes(df, parse);
    var dated := DropUnparsed(parsed);
    DropMissingKeeps(raw);
    DropUnparsedKeeps(parsed);
    forall i | 0 <= i < |dated| ensures Complete(dated[i]) {
      assert dated[i] in parsed;
      var k :| 0 <= k < |parsed| && parsed[k] == dated[i];
      assert df[k] in df;
    }
  }

  /** The staged pipeline of utils.py computes the one-pass table. */
  lemma {:induction false} StagesMatchCleanTable(raw: seq<RawRow>, parse: string -> Option<Date>)
    ensures forall i :: 0 <= i < |DropUnparsed(ParseTimes(DropMissing(raw), parse))| ==>
      Complete(DropUnparsed(ParseTimes(DropMissing(raw), parse))[i])
    ensures AddColumns(DropUnparsed(ParseTimes(DropMissing(raw), parse))) == CleanTable(raw, parse)
    decreases |raw|
  {
    StagesComplete(raw, parse);
    if raw != [] {
      var p, x := raw[..|raw| - 1], raw[|raw| - 1];
      assert raw == p + [x];
      StagesMatchCleanTable(p, parse);
      var dated, dated' := DropUnparsed(ParseTimes(DropMissing(raw), parse)), DropUnparsed(ParseTimes(DropMissing(p), parse));
      assert CleanTable(raw, parse) == CleanTable(p, parse) + (if Keep(x, parse) then [Derive(x, parse)] else []);
      StagesSnoc(p, x, parse);
      if Keep(x, parse) {
        AddColumnsSnoc(dated', ParseRow(x, parse));
      }
    }
  }

  /** One more raw row adds its parsed row to the output of the two drop passes exactly when it is kept. */
  lemma StagesSnoc(p: seq<RawRow>, x: RawRow, parse: string -> Option<Date>)
    ensures DropUnparsed(ParseTimes(DropMissing(p + [x]), parse))
         == DropUnparsed(ParseTimes(DropMissing(p), parse)) + (if Keep(x, parse) then [ParseRow(x, parse)] else [])
  {
    var df, df' := DropMissing(p + [x]), DropMissing(p);
    assert (p + [x])[..|p|] == p;
    if HasTitleAndTime(x) {
      var y := ParseRow(x, parse);
      assert df == df' + [x];
      ParseTimesSnoc(df', x, parse);
      DropUnparsedSnoc(ParseTimes(df', parse), y);
    } else {
      assert df == df';
    }
  }

  lemma ParseTimesSnoc(df: seq<RawRow>, x: RawRow, parse: string -> Option<Date>)
    ensures ParseTimes(df + [x], parse) == ParseTimes(df, parse) + [ParseRow(x, parse)]
  {
    assert (df + [x])[..|df|] == df;
  }

  lemma DropUnparsedSnoc(rows: seq<ParsedRow>, y: ParsedRow)
    ensures DropUnparsed(rows + [y]) == DropUnparsed(rows) + (if y.publishTime.Some? then [y] else [])
  {
    assert (rows + [y])[..|rows|] == rows;
  }

  lemma AddColumnsSnoc(rows: seq<ParsedRow>, y: ParsedRow)
    requires forall i :: 0 <= i < |rows| ==> Complete(rows[i])
    requires Complete(y)
    ensures AddColumns(rows + [y]) == AddColumns(rows) + [WithDerived(y)]
  {
    assert (rows + [y])[..|rows|] == rows;
  }

  /**
   * load_and_clean_data: no table when download_dataset() returned False; otherwise the
   * two drop passes and the derived columns, with the count of the first pass.
   */
  method LoadAndClean(downloaded: bool, raw: seq<RawRow>, parse: string -> Option<Date>)
    returns (result: Option<Cleaned>)
    ensures result.None? <==> !downloaded
    ensures result.Some? ==> result.value.table == CleanTable(raw, parse)
    ensures result.Some? ==> result.value.dropped == MissingCount(raw)
  {
    if !downloaded {
      return None;
    }
    var df := DropMissing(raw);
    var dropped := |raw| - |df|;
    var parsed := ParseTimes(df, parse);
    var dated := DropUnparsed(parsed);
    StagesMatchCleanTable(raw, parse);
    var table := AddColumns(dated);
    return Some(Cleaned(table, dropped));
  }

  /** Cleaning a table cut in two cleans each part on its own. */
  lemma {:induction false} CleanTableAppend(a: seq<RawRow>, b: seq<RawRow>, parse: string -> Option<Date>)
    ensures CleanTable(a + b, parse) == CleanTable(a, parse) + CleanTable(b, parse)
    decreases |b|
  {
    if b == [] {
      assert a + b == a;
    } else {
      var b', y := b[..|b| - 1], b[|b| - 1];
      assert (a + b)[..|a + b| - 1] == a + b';
      CleanTableAppend(a, b', parse);
    }
  }

  /** Cleaning a table cut at position k cleans each part on its own. */
  lemma CleanTableSplit(raw: seq<RawRow>, k: nat, parse: string -> Option<Date>)
    requires k <= |raw|
    ensures CleanTable(raw, parse) == CleanTable(raw[..k], parse) + CleanTable(raw[k..], parse)
  {
    assert raw == raw[..k] + raw[k..];
    CleanTableAppend(raw[..k], raw[k..], parse);
  }

  lemma DroppedRowCleansToNothing(r: RawRow, parse: string -> Option<Date>)
    requires !Keep(r, parse)
    ensures CleanTable([r], parse) == []
  {
    assert [r][..0] == [];
  }

  /**
   * A row whose publish_time is present but does not parse survives the first
   * drop pass and still contributes nothing to the cleaned table.
   */
  lemma {:induction false} UnparseableRowDropped(raw: seq<RawRow>, parse: string -> Option<Date>, i: nat)
    requires i < |raw| && HasTitleAndTime(raw[i]) && parse(raw[i].publishTime.value).None?
    ensures raw[i] in DropMissing(raw)
    ensures CleanTable(raw, parse) == CleanTable(raw[..i], parse) + CleanTable(raw[i + 1..], parse)
  {
    KeptByFirstPass(raw, i);
    var rest := raw[i..];
    CleanTableSplit(raw, i, parse);
    CleanTableSplit(rest, 1, parse);
    assert rest[..1] == [raw[i]] && rest[1..] == raw[i + 1..];
    DroppedRowCleansToNothing(raw[i], parse);
  }

  /**
   * The printed "Dropped" count covers the first pass only: together with the
   * rows whose time does not parse and the rows kept, it accounts for every row.
   */
  lemma {:induction false} DroppedCountExcludesUnparsed(raw: seq<RawRow>, parse: string -> Option<Date>)
    ensures MissingCount(raw) + UnparsedCount(raw, parse) + |CleanTable(raw, parse)| == |raw|
    decreases |raw|
  {
    if raw != [] {
      DroppedCountExcludesUnparsed(raw[..|raw| - 1], parse);
    }
  }

  /** idx lists, in increasing order, the raw positions the cleaned rows come from. */
  ghost predicate Lineage(table: seq<Row>, raw: seq<RawRow>, parse: string -> Option<Date>, idx: seq<nat>) {
    && |idx| == |table|
    && (forall k :: 0 <= k < |idx| ==> idx[k] < |raw| && RowFrom(table[k], raw[idx[k]], parse))
    && (forall k, l :: 0 <= k < l < |idx| ==> idx[k] < idx[l])
    && (forall i :: 0 <= i < |raw| && Keep(raw[i], parse) ==> i in idx)
  }

  /**
   * The cleaned table is the rows that have a title, a publish_time and a parseable
   * date, in their original order and no others, each carrying its parsed date,
   * its year and the word count of its abstract.
   */
  lemma {:induction false} CleanLineage(raw: seq<RawRow>, parse: string -> Option<Date>) returns (idx: seq<nat>)
    ensures Lineage(CleanTable(raw, parse), raw, parse, idx)
    decreases |raw|
  {
    if raw == [] {
      idx := [];
    } else {
      var p, x := raw[..|raw| - 1], raw[|raw| - 1];
      assert raw == p + [x];
      var idx' := CleanLineage(p, parse);
      idx := idx' + (if Keep(x, parse) then [|p|] else []);
      LineageSnoc(CleanTable(p, parse), p, x, parse, idx');
    }
  }

  /** One more raw row extends the lineage by its own position when it survives. */
  lemma LineageSnoc(table: seq<Row>, p: seq<RawRow>, x: RawRow, parse: string -> Option<Date>, idx: seq<nat>)
    requires Lineage(table, p, parse, idx)
    ensures Lineage(table + (if Keep(x, parse) then [Derive(x, parse)] else []), p + [x], parse,
                    idx + (if Keep(x, parse) then [|p|] else []))
  {
    var raw := p + [x];
    var table' := table + (if Keep(x, parse) then [Derive(x, parse)] else []);
    var idx' := idx + (if Keep(x, parse) then [|p|] else []);
    forall k | 0 <= k < |idx'| ensures idx'[k] < |raw| && RowFrom(table'[k], raw[idx'[k]], parse) {
      if k < |idx| {
        assert idx'[k] == idx[k] && table'[k] == table[k] && raw[idx[k]] == p[idx[k]];
      }
    }
    forall i | 0 <= i < |raw| && Keep(raw[i], parse) ensures i in idx' {
      if i < |p| {
        assert p[i] == raw[i];
        assert i in idx;
      }
    }
  }
}

=== FILE: counting.dfy ===
/**
 * Group counts as pandas computes them for the dashboard: Series.value_counts()
 * (missing values left out, most frequent first) and Series.sort_index().
 */
module Counting {
  import opened Records

  /** Some entry of the table t has key k. */
  ghost predicate HasKey<K>(t: seq<(K, nat)>, k: K) {
    exists i :: 0 <= i < |t| && t[i].0 == k
  }

  ghost predicate DistinctKeys<K>(t: seq<(K, nat)>) {
    forall i, j :: 0 <= i < j < |t| ==> t[i].0 != t[j].0
  }

  /** Sum of the counts of t. */
  function Sum<K>(t: seq<(K, nat)>): nat
    decreases |t|
  {
    if t == [] then 0 else t[0].1 + Sum(t[1..])
  }

  /**
   * t lists each value occurring in xs exactly once, with the number of times it
   * occurs; values that do not occur are absent (no zero entries).
   */
  ghost predicate IsCountTable<K>(t: seq<(K, nat)>, xs: seq<K>) {
    && DistinctKeys(t)
    && (forall i :: 0 <= i < |t| ==> t[i].0 in xs && t[i].1 == multiset(xs)[t[i].0])
    && (forall x :: x in xs ==> HasKey(t, x))
  }

  /** Counts one more occurrence of x: its entry is incremented, or appended with count 1. */
  function Bump<K(==)>(t: seq<(K, nat)>, x: K): (r: seq<(K, nat)>)
    requires DistinctKeys(t)
    ensures HasKey(t, x) ==> |r| == |t|
    ensures !HasKey(t, x) ==> |r| == |t| + 1 && r[|t|] == (x, 1)
    ensures forall i :: 0 <= i < |t| ==> r[i].0 == t[i].0 && r[i].1 == t[i].1 + (if t[i].0 == x then 1 else 0)
    ensures Sum(r) == Sum(t) + 1
    decreases |t|
  {
    if t == [] then [(x, 1)]
    else if t[0].0 == x then
      assert forall i :: 1 <= i < |t| ==> t[i].0 != x;
      [(x, t[0].1 + 1)] + t[1..]
    else
      var r' := Bump(t[1..], x);
      assert HasKey(t, x) ==> HasKey(t[1..], x) by {
        if HasKey(t, x) {
          var i :| 0 <= i < |t| && t[i].0 == x;
          assert t[1..][i - 1].0 == x;
        }
      }
      assert HasKey(t[1..], x) ==> HasKey(t, x) by {
        if HasKey(t[1..], x) {
          var i :| 0 <= i < |t| - 1 && t[1..][i].0 == x;
          assert t[i + 1].0 == x;
        }
      }
      assert ([t[0]] + r')[1..] == r';
      [t[0]] + r'
  }

  /** The distinct values of xs in order of first occurrence, each with its number of occurrences. */
  function Tally<K(==,!new)>(xs: seq<K>): (t: seq<(K, nat)>)
    ensures IsCountTable(t, xs)
    ensures Sum(t) == |xs|
    decreases |xs|
  {
    if xs == [] then []
    else
      var p, x := xs[..|xs| - 1], xs[|xs| - 1];
      assert xs == p + [x];
      BumpCounts(Tally(p), p, x);
      Bump(Tally(p), x)
  }

  /** Bumping x in a count table of p gives a count table of p + [x]. */
  lemma BumpCounts<K(!new)>(t: seq<(K, nat)>, p: seq<K>, x: K)
    requires IsCountTable(t, p)
    ensures IsCountTable(Bump(t, x), p + [x])
  {
    var xs, r := p + [x], Bump(t, x);
    assert forall y :: y in xs <==> y in p || y == x;
    assert forall i :: 0 <= i < |r| ==> r[i].0 in xs && r[i].1 == multiset(xs)[r[i].0] by {
      forall i | 0 <= i < |r| ensures r[i].0 in xs && r[i].1 == multiset(xs)[r[i].0] {
        if i == |t| {
          assert x !in p;
        }
      }
    }
    assert forall y :: y in xs ==> HasKey(r, y) by {
      forall y | y in xs ensures HasKey(r, y) {
        if y in p {
          var i :| 0 <= i < |t| && t[i].0 == y;
          assert r[i].0 == y;
        } else {
          assert r[|t|].0 == y;
        }
      }
    }
    assert DistinctKeys(r) by {
      forall i, j | 0 <= i < j < |r| ensures r[i].0 != r[j].0 {
        if j == |t| {
          assert t[i].0 != x;
        }
      }
    }
  }

  ghost predicate CountsNonIncreasing<K>(t: seq<(K, nat)>) {
    forall i, j :: 0 <= i < j < |t| ==> t[i].1 >= t[j].1
  }

  ghost predicate KeysIncreasing(t: seq<(int, nat)>) {
    forall i, j :: 0 <= i < j < |t| ==> t[i].0 < t[j].0
  }

  lemma HasKeyOfTail<K>(t: seq<(K, nat)>, k: K)
    requires t != []
    ensures HasKey(t, k) <==> t[0].0 == k || HasKey(t[1..], k)
  {
    if HasKey(t[1..], k) {
      var i :| 0 <= i < |t| - 1 && t[1..][i].0 == k;
      assert t[i + 1].0 == k;
    }
  }

  /** Tables holding the same entries have the same keys. */
  lemma SameEntriesSameKeys<K>(a: seq<(K, nat)>, b: seq<(K, nat)>, k: K)
    requires multiset(a) == multiset(b)
    ensures HasKey(a, k) <==> HasKey(b, k)
  {
    if HasKey(a, k) {
      var i :| 0 <= i < |a| && a[i].0 == k;
      assert a[i] in multiset(b);
    }
    if HasKey(b, k) {
      var i :| 0 <= i < |b| && b[i].0 == k;
      assert b[i] in multiset(a);
    }
  }

  /** Reordering a count table (with no key repeated) keeps it a count table. */
  lemma CountTableReordered<K>(t: seq<(K, nat)>, r: seq<(K, nat)>, xs: seq<K>)
    requires IsCountTable(t, xs)
    requires multiset(r) == multiset(t) && DistinctKeys(r)
    ensures IsCountTable(r, xs)
  {
    forall i | 0 <= i < |r| ensures r[i].0 in xs && r[i].1 == multiset(xs)[r[i].0] {
      assert r[i] in multiset(t);
    }
    forall x | x in xs ensures HasKey(r, x) {
      SameEntriesSameKeys(t, r, x);
    }
  }

  /** An entry of a table that holds the entries of t and e is e or an entry of t. */
  lemma EntryOfInsert<K>(e: (K, nat), t: seq<(K, nat)>, r: seq<(K, nat)>, j: nat)
    requires multiset(r) == multiset(t) + multiset{e}
    requires j < |r|
    ensures r[j] == e || r[j] in t
  {
    assert r[j] in multiset(r);
  }

  /** Inserts e after every entry counted at least as often (one step of sorting by count). */
  function InsertByCount<K>(e: (K, nat), t: seq<(K, nat)>): (r: seq<(K, nat)>)
    requires CountsNonIncreasing(t)
    ensures multiset(r) == multiset(t) + multiset{e}
    ensures CountsNonIncreasing(r)
    ensures Sum(r) == e.1 + Sum(t)
    decreases |t|
  {
    if t == [] || e.1 >= t[0].1 then
      assert forall j :: 0 <= j < |t| ==> t[0].1 >= t[j].1;
      ConsCountsNonIncreasing(e, t);
      assert ([e] + t)[1..] == t;
      [e] + t
    else
      var r' := InsertByCount(e, t[1..]);
      assert t == [t[0]] + t[1..];
      forall j | 0 <= j < |r'| ensures t[0].1 >= r'[j].1 {
        EntryOfInsert(e, t[1..], r', j);
      }
      ConsCountsNonIncreasing(t[0], r');
      assert ([t[0]] + r')[1..] == r';
      [t[0]] + r'
  }

  /** An entry counted at least as often as every entry of a sorted table can go in front of it. */
  lemma ConsCountsNonIncreasing<K>(h: (K, nat), t: seq<(K, nat)>)
    requires CountsNonIncreasing(t)
    requires forall j :: 0 <= j < |t| ==> h.1 >= t[j].1
    ensures CountsNonIncreasing([h] + t)
  {
    var r := [h] + t;
    forall i, j | 0 <= i < j < |r| ensures r[i].1 >= r[j].1 {
      assert r[j] == t[j - 1];
      if i > 0 {
        assert r[i] == t[i - 1];
      }
    }
  }

  /** The entries of t, most frequent first (value_counts' order; ties in no promised order). */
  function SortByCount<K>(t: seq<(K, nat)>): (r: seq<(K, nat)>)
    ensures multiset(r) == multiset(t)
    ensures CountsNonIncreasing(r)
    ensures Sum(r) == Sum(t)
    decreases |t|
  {
    if t == [] then []
    else
      assert t == [t[0]] + t[1..];
      InsertByCount(t[0], SortByCount(t[1..]))
  }

  /** Sorting by count keeps the keys distinct. */
  lemma {:induction false} SortByCountDistinct<K>(t: seq<(K, nat)>)
    requires DistinctKeys(t)
    ensures DistinctKeys(SortByCount(t))
    decreases |t|
  {
    if t != [] {
      var e, rest := t[0], t[1..];
      var s := SortByCount(rest);
      SortByCountDistinct(rest);
      assert !HasKey(rest, e.0);
      SameEntriesSameKeys(s, rest, e.0);
      InsertKeepsDistinct(e, s);
    }
  }

  lemma {:induction false} InsertKeepsDistinct<K>(e: (K, nat), t: seq<(K, nat)>)
    requires CountsNonIncreasing(t) && DistinctKeys(t) && !HasKey(t, e.0)
    ensures DistinctKeys(InsertByCount(e, t))
    decreases |t|
  {
    if t != [] && e.1 < t[0].1 {
      var rest := t[1..];
      var r' := InsertByCount(e, rest);
      assert !HasKey(rest, e.0);
      InsertKeepsDistinct(e, rest);
      forall j | 0 <= j < |r'| ensures r'[j].0 != t[0].0 {
        EntryOfInsert(e, rest, r', j);
      }
    }
  }

  /** Inserts e in front of the first entry with a larger key (one step of sort_index). */
  function InsertByKey(e: (int, nat), t: seq<(int, nat)>): seq<(int, nat)>
    decreases |t|
  {
    if t == [] || e.0 < t[0].0 then [e] + t else [t[0]] + InsertByKey(e, t[1..])
  }

  /** Insertion adds e and loses nothing. */
  lemma {:induction false} InsertByKeyKeeps(e: (int, nat), t: seq<(int, nat)>)
    ensures multiset(InsertByKey(e, t)) == multiset(t) + multiset{e}
    ensures Sum(InsertByKey(e, t)) == e.1 + Sum(t)
    decreases |t|
  {
    var r := InsertByKey(e, t);
    if t == [] || e.0 < t[0].0 {
      assert r[1..] == t;
    } else {
      InsertByKeyKeeps(e, t[1..]);
      MultisetOfCons(t);
      assert r[1..] == InsertByKey(e, t[1..]);
    }
  }

  /** Inserting a new key into an ascending table keeps it ascending. */
  lemma {:induction false} InsertByKeySorted(e: (int, nat), t: seq<(int, nat)>)
    requires KeysIncreasing(t) && !HasKey(t, e.0)
    ensures KeysIncreasing(InsertByKey(e, t))
    decreases |t|
  {
    if t == [] || e.0 < t[0].0 {
      if t != [] {
        KeysIncreasingTail(t);
      }
      ConsKeysIncreasing(e, t);
    } else {
      var rest := t[1..];
      HasKeyOfTail(t, e.0);
      KeysIncreasingTail(t);
      InsertByKeySorted(e, rest);
      InsertByKeyKeeps(e, rest);
      AboveAfterInsert(t[0].0, e, rest, InsertByKey(e, rest));
      ConsKeysIncreasing(t[0], InsertByKey(e, rest));
    }
  }

  lemma MultisetOfCons<T>(s: seq<T>)
    requires s != []
    ensures multiset(s) == multiset{s[0]} + multiset(s[1..])
  {
    assert s == [s[0]] + s[1..];
  }

  /** The tail of an ascending table is ascending, and every key in it is above the head's. */
  lemma KeysIncreasingTail(t: seq<(int, nat)>)
    requires t != [] && KeysIncreasing(t)
    ensures KeysIncreasing(t[1..])
    ensures forall k :: 0 <= k < |t| - 1 ==> t[0].0 < t[1..][k].0
  {
    var rest := t[1..];
    forall i, j | 0 <= i < j < |rest| ensures rest[i].0 < rest[j].0 {
      assert rest[i] == t[i + 1] && rest[j] == t[j + 1];
    }
    forall k | 0 <= k < |rest| ensures t[0].0 < rest[k].0 {
      assert rest[k] == t[k + 1];
    }
  }

  /** A bound below every key of t and below e's key stays below every key after inserting e. */
  lemma AboveAfterInsert(lo: int, e: (int, nat), t: seq<(int, nat)>, r: seq<(int, nat)>)
    requires forall k :: 0 <= k < |t| ==> lo < t[k].0
    requires lo < e.0
    requires multiset(r) == multiset(t) + multiset{e}
    ensures forall j :: 0 <= j < |r| ==> lo < r[j].0
  {
    forall j | 0 <= j < |r| ensures lo < r[j].0 {
      EntryOfInsert(e, t, r, j);
      if r[j] != e {
        var k :| 0 <= k < |t| && t[k] == r[j];
      }
    }
  }

  /** An entry with a key below every key of an ascending table can go in front of it. */
  lemma ConsKeysIncreasing(h: (int, nat), t: seq<(int, nat)>)
    requires KeysIncreasing(t)
    requires forall j :: 0 <= j < |t| ==> h.0 < t[j].0
    ensures KeysIncreasing([h] + t)
  {
    var r := [h] + t;
    forall i, j | 0 <= i < j < |r| ensures r[i].0 < r[j].0 {
      assert r[j] == t[j - 1];
      if i > 0 {
        assert r[i] == t[i - 1];
      }
    }
  }

  /** Series.sort_index() on a count table: the entries in ascending key order. */
  function SortByKey(t: seq<(int, nat)>): (r: seq<(int, nat)>)
    ensures multiset(r) == multiset(t)
    ensures Sum(r) == Sum(t)
    decreases |t|
  {
    if t == [] then []
    else
      assert t == [t[0]] + t[1..];
      InsertByKeyKeeps(t[0], SortByKey(t[1..]));
      InsertByKey(t[0], SortByKey(t[1..]))
  }

  /**
   * sort_index keeps the entries (so the total count) and, when no key repeats,
   * puts them in strictly ascending key order.
   */
  lemma {:induction false} SortByKeySorted(t: seq<(int, nat)>)
    requires DistinctKeys(t)
    ensures multiset(SortByKey(t)) == multiset(t)
    ensures Sum(SortByKey(t)) == Sum(t)
    ensures KeysIncreasing(SortByKey(t))
    decreases |t|
  {
    if t != [] {
      DistinctTail(t);
      var s := SortByKey(t[1..]);
      SortByKeySorted(t[1..]);
      MultisetOfCons(t);
      SameEntriesSameKeys(s, t[1..], t[0].0);
      InsertByKeyKeeps(t[0], s);
      InsertByKeySorted(t[0], s);
    }
  }

  /** The tail of a table with distinct keys has distinct keys, none of them the head's. */
  lemma DistinctTail<K>(t: seq<(K, nat)>)
    requires t != [] && DistinctKeys(t)
    ensures DistinctKeys(t[1..]) && !HasKey(t[1..], t[0].0)
  {
    var rest := t[1..];
    forall i, j | 0 <= i < j < |rest| ensures rest[i].0 != rest[j].0 {
      assert rest[i] == t[i + 1] && rest[j] == t[j + 1];
    }
    forall i | 0 <= i < |rest| ensures rest[i].0 != t[0].0 {
      assert rest[i] == t[i + 1];
    }
  }

  /**
   * head(n) of a table sorted by count: a key present in the table but not in
   * its first n entries is counted no more often than any of them.
   */
  lemma LeftOutIsNoLarger<K>(t: seq<(K, nat)>, n: nat, k: K) returns (m: nat)
    requires CountsNonIncreasing(t) && n <= |t|
    requires HasKey(t, k) && !HasKey(t[..n], k)
    ensures n <= m < |t| && t[m].0 == k
    ensures forall i :: 0 <= i < n ==> t[i].1 >= t[m].1
  {
    m :| 0 <= m < |t| && t[m].0 == k;
  }

  /** Series.dropna(): the present values of xs, in order. */
  function Present<K(!new)>(xs: seq<Option<K>>): (ys: seq<K>)
    ensures forall y :: multiset(ys)[y] == multiset(xs)[Some(y)]
    decreases |xs|
  {
    if xs == [] then []
    else
      var p := xs[..|xs| - 1];
      assert xs == p + [xs[|xs| - 1]];
      Present(p) + (if xs[|xs| - 1].Some? then [xs[|xs| - 1].value] else [])
  }

  /**
   * Series.value_counts() of a column without missing values: each distinct value
   * once with its number of occurrences, most frequent first.
   */
  function CountValues<K(==,!new)>(xs: seq<K>): (t: seq<(K, nat)>)
    ensures IsCountTable(t, xs)
    ensures CountsNonIncreasing(t)
    ensures Sum(t) == |xs|
  {
    var tally := Tally(xs);
    var t := SortByCount(tally);
    SortByCountDistinct(tally);
    CountTableReordered(tally, t, xs);
    t
  }

  /** Series.value_counts() with its default dropna=True: missing values form no group. */
  function ValueCounts<K(==,!new)>(xs: seq<Option<K>>): (t: seq<(K, nat)>)
    ensures forall i :: 0 <= i < |t| ==> t[i].1 == multiset(xs)[Some(t[i].0)] && t[i].1 > 0
    ensures forall x :: Some(x) in xs ==> HasKey(t, x)
    ensures DistinctKeys(t)
    ensures CountsNonIncreasing(t)
    ensures Sum(t) + multiset(xs)[None] == |xs|
  {
    var ys := Present(xs);
    var t := CountValues(ys);
    forall x | Some(x) in xs ensures x in ys {
      assert multiset(xs)[Some(x)] > 0;
    }
    PresentLength(xs);
    t
  }

  /**
   * value_counts().head(n): the n most frequent present values with their counts.
   * A present value left out is counted no more often than any listed one, and
   * values are left out only when the list is full.
   */
  function TopCounts<K(==,!new)>(xs: seq<Option<K>>, n: nat): (t: seq<(K, nat)>)
    ensures |t| <= n
    ensures DistinctKeys(t)
    ensures forall i :: 0 <= i < |t| ==> t[i].1 == multiset(xs)[Some(t[i].0)] && t[i].1 > 0
    ensures CountsNonIncreasing(t)
    ensures forall k :: Some(k) in xs && !HasKey(t, k) ==>
      |t| == n && forall i :: 0 <= i < |t| ==> t[i].1 >= multiset(xs)[Some(k)]
  {
    var counts := ValueCounts(xs);
    var t := if |counts| <= n then counts else counts[..n];
    HeadOfCounts(counts, t, xs);
    t
  }

  /**
   * The head of a value_counts table keeps its distinct keys, exact counts and
   * order; a present value missing from it is counted no more often than any
   * listed one, and is missing only because the head is shorter than the table.
   */
  lemma HeadOfCounts<K>(counts: seq<(K, nat)>, t: seq<(K, nat)>, xs: seq<Option<K>>)
    requires DistinctKeys(counts) && CountsNonIncreasing(counts)
    requires forall i :: 0 <= i < |counts| ==> counts[i].1 == multiset(xs)[Some(counts[i].0)] && counts[i].1 > 0
    requires forall x :: Some(x) in xs ==> HasKey(counts, x)
    requires |t| <= |counts| && t == counts[..|t|]
    ensures DistinctKeys(t) && CountsNonIncreasing(t)
    ensures forall i :: 0 <= i < |t| ==> t[i].1 == multiset(xs)[Some(t[i].0)] && t[i].1 > 0
    ensures forall k :: Some(k) in xs && !HasKey(t, k) ==>
      |t| < |counts| && forall i :: 0 <= i < |t| ==> t[i].1 >= multiset(xs)[Some(k)]
  {
    assert forall i :: 0 <= i < |t| ==> t[i] == counts[i];
    forall k | Some(k) in xs && !HasKey(t, k)
      ensures |t| < |counts| && forall i :: 0 <= i < |t| ==> t[i].1 >= multiset(xs)[Some(k)]
    {
      LeftOutOfHead(counts, t, xs, k);
    }
  }

  /** A value missing from the head of a table sorted by count is no more frequent than any listed one. */
  lemma LeftOutOfHead<K>(counts: seq<(K, nat)>, t: seq<(K, nat)>, xs: seq<Option<K>>, k: K)
    requires CountsNonIncreasing(counts)
    requires forall i :: 0 <= i < |counts| ==> counts[i].1 == multiset(xs)[Some(counts[i].0)]
    requires HasKey(counts, k)
    requires |t| <= |counts| && t == counts[..|t|] && !HasKey(t, k)
    ensures |t| < |counts|
    ensures forall i :: 0 <= i < |t| ==> t[i].1 >= multiset(xs)[Some(k)]
  {
    var m := LeftOutIsNoLarger(counts, |t|, k);
  }

  lemma {:induction false} PresentLength<K(!new)>(xs: seq<Option<K>>)
    ensures |Present(xs)| + multiset(xs)[None] == |xs|
    decreases |xs|
  {
    if xs != [] {
      var p := xs[..|xs| - 1];
      assert xs == p + [xs[|xs| - 1]];
      PresentLength(p);
    }
  }
}

=== FILE: records.dfy ===
/** The records of the metadata table, before and after cleaning. */
module Records {

  /** A cell that may be missing (NaN / None in the loaded table). */
  datatype Option<+T> = None | Some(value: T) {
    /** Series.fillna(default) applied to one cell. */
    function GetOr(default: T): T {
      match this
      case Some(v) => v
      case None => default
    }
  }

  /** The calendar date a publish_time string parses to. */
  datatype Date = Date(year: int, month: int, day: int)

  /** One row of metadata.csv as it is read, restricted to the columns the dashboard uses. */
  datatype RawRow = RawRow(
    title: Option<string>,
    publishTime: Option<string>,
    abstractText: Option<string>,
    journal: Option<string>,
    source: Option<string>)

  /** A row after publish_time has been converted to a date (a failed conversion is missing, NaT). */
  datatype ParsedRow = ParsedRow(
    title: Option<string>,
    publishTime: Option<Date>,
    abstractText: Option<string>,
    journal: Option<string>,
    source: Option<string>)

  /** A row of the cleaned table: title and date are present, year and abstract_word_count are derived. */
  datatype Row = Row(
    title: string,
    publishTime: Date,
    abstractText: Option<string>,
    journal: Option<string>,
    source: Option<string>,
    year: int,
    abstractWordCount: nat)
}

=== FILE: seqs.dfy ===
/** Order-preserving subsequences: what every row filter of the dashboard produces. */
module Seqs {

  /** idx picks, in strictly increasing order, the positions of b that a is made of. */
  ghost predicate Embeds<T>(idx: seq<nat>, a: seq<T>, b: seq<T>) {
    && |idx| == |a|
    && (forall k :: 0 <= k < |idx| ==> idx[k] < |b| && a[k] == b[idx[k]])
    && (forall k, l :: 0 <= k < l < |idx| ==> idx[k] < idx[l])
  }

  /** a is obtained from b by deleting elements, keeping the order of the rest. */
  ghost predicate IsSubsequence<T>(a: seq<T>, b: seq<T>) {
    exists idx :: Embeds(idx, a, b)
  }

  /** The empty sequence is a subsequence of any sequence. */
  lemma SubsequenceOfEmpty<T>(b: seq<T>)
    ensures IsSubsequence([], b)
  {
    assert Embeds([], [], b);
  }

  /** Appending one more element to b, and keeping it or not, extends a subsequence of b. */
  lemma SubsequenceSnoc<T>(a: seq<T>, b: seq<T>, x: T, keep: bool)
    requires IsSubsequence(a, b)
    ensures IsSubsequence(a + (if keep then [x] else []), b + [x])
  {
    var idx: seq<nat> :| Embeds(idx, a, b);
    if keep {
      var idx': seq<nat> := idx + [|b|];
      assert forall k :: 0 <= k < |idx| ==> idx'[k] == idx[k] && (a + [x])[k] == a[k];
      assert Embeds(idx', a + [x], b + [x]);
    } else {
      assert Embeds(idx, a + [], b + [x]);
    }
  }

  /** Strictly increasing positions: the k-th is at least k. */
  lemma {:induction false} IncreasingAtLeastIndex(idx: seq<nat>, k: nat)
    requires forall i, j :: 0 <= i < j < |idx| ==> idx[i] < idx[j]
    requires k < |idx|
    ensures idx[k] >= k
    decreases k
  {
    if k > 0 {
      IncreasingAtLeastIndex(idx, k - 1);
    }
  }

  /** A subsequence is no longer than the sequence and holds only its elements. */
  lemma SubsequenceShorter<T>(a: seq<T>, b: seq<T>)
    requires IsSubsequence(a, b)
    ensures |a| <= |b|
    ensures forall x :: x in a ==> x in b
  {
    var idx: seq<nat> :| Embeds(idx, a, b);
    if a != [] {
      IncreasingAtLeastIndex(idx, |a| - 1);
    }
    forall x | x in a ensures x in b {
      var k :| 0 <= k < |a| && a[k] == x;
      assert b[idx[k]] == x;
    }
  }

  /** Every prefix of s (pandas head(n)) is a subsequence of s. */
  lemma PrefixIsSubsequence<T>(s: seq<T>, n: nat)
    requires n <= |s|
    ensures IsSubsequence(s[..n], s)
  {
    var idx := seq(n, k requires 0 <= k < n => k as nat);
    assert Embeds(idx, s[..n], s);
  }

  lemma SubsequenceTransitive<T>(a: seq<T>, b: seq<T>, c: seq<T>)
    requires IsSubsequence(a, b) && IsSubsequence(b, c)
    ensures IsSubsequence(a, c)
  {
    var ab :| Embeds(ab, a, b);
    var bc :| Embeds(bc, b, c);
    var ac := seq(|ab|, k requires 0 <= k < |ab| => bc[ab[k]]);
    assert Embeds(ac, a, c);
  }
}

=== FILE: text.dfy ===
/**
 * Python's whitespace tokenisation (str.split() with no separator), used for
 * abstract_word_count, and ' '.join, used to build the word-cloud text.
 */
module Text {

  /** The characters Python's str.isspace() accepts; str.split() breaks on runs of them. */
  predicate IsSpace(c: char) {
    || c == ' '
    || ('\t' <= c <= '\r')                 // \t \n \v \f \r
    || ('\U{1c}' <= c <= '\U{1f}')         // file, group, record and unit separators
    || c == '\U{85}' || c == '\U{a0}' || c == '\U{1680}'
    || ('\U{2000}' <= c <= '\U{200a}')
    || c == '\U{2028}' || c == '\U{2029}' || c == '\U{202f}' || c == '\U{205f}' || c == '\U{3000}'
  }

  /** Length of the run of non-space characters that s starts with. */
  function RunLength(s: string): (n: nat)
    ensures n <= |s|
    ensures forall i :: 0 <= i < n ==> !IsSpace(s[i])
    ensures n == |s| || IsSpace(s[n])
  {
    if s == [] || IsSpace(s[0]) then 0 else 1 + RunLength(s[1..])
  }

  /** str.split(): the maximal runs of non-space characters of s, in order. */
  function Split(s: string): (words: seq<string>)
    ensures forall w :: w in words ==> w != [] && forall c :: c in w ==> !IsSpace(c)
    decreases |s|
  {
    if s == [] then []
    else if IsSpace(s[0]) then Split(s[1..])
    else
      var n := RunLength(s);
      [s[..n]] + Split(s[n..])
  }

  /** len(s.split()): the number of maximal runs of non-whitespace characters. */
  function WordCount(s: string): (n: nat)
    ensures n == RunCount(s)
  {
    assert s[0..] == s;
    SplitFromBoundary(s, 0);
    |Split(s)|
  }

  /** Position i of s begins a maximal run of non-space characters. */
  predicate StartsRun(s: string, i: nat)
    requires i < |s|
  {
    !IsSpace(s[i]) && (i == 0 || IsSpace(s[i - 1]))
  }

  /** Number of positions at or after i that begin a run. */
  function RunsFrom(s: string, i: nat): nat
    requires i <= |s|
    decreases |s| - i
  {
    if i == |s| then 0 else (if StartsRun(s, i) then 1 else 0) + RunsFrom(s, i + 1)
  }

  /** Number of maximal runs of non-space characters in s. */
  function RunCount(s: string): nat {
    RunsFrom(s, 0)
  }

  /** The characters of s that are not whitespace, in order. */
  function NonSpace(s: string): string
    decreases |s|
  {
    if s == [] then [] else (if IsSpace(s[0]) then [] else [s[0]]) + NonSpace(s[1..])
  }

  /** The words of ws written one after the other. */
  function Concat(ws: seq<string>): string
    decreases |ws|
  {
    if ws == [] then [] else ws[0] + Concat(ws[1..])
  }

  /** Inside a run, no position begins a new one. */
  lemma {:induction false} NoStartInsideRun(s: string, i: nat, j: nat)
    requires i < j <= |s|
    requires forall k :: i <= k < j ==> !IsSpace(s[k])
    ensures RunsFrom(s, i + 1) == RunsFrom(s, j)
    decreases j - i
  {
    if i + 1 < j {
      NoStartInsideRun(s, i + 1, j);
    }
  }

  /** Splitting the suffix from a run boundary yields one word per run start in it. */
  lemma {:induction false} SplitFromBoundary(s: string, i: nat)
    requires i <= |s|
    requires i == 0 || i == |s| || IsSpace(s[i - 1]) || IsSpace(s[i])
    ensures |Split(s[i..])| == RunsFrom(s, i)
    decreases |s| - i
  {
    if i < |s| {
      var t := s[i..];
      if IsSpace(s[i]) {
        assert t[1..] == s[i + 1..];
        SplitFromBoundary(s, i + 1);
      } else {
        var n := RunLength(t);
        assert StartsRun(s, i);
        assert t[n..] == s[i + n..];
        forall k | i <= k < i + n ensures !IsSpace(s[k]) {
          assert s[k] == t[k - i];
        }
        NoStartInsideRun(s, i, i + n);
        if i + n < |s| {
          assert IsSpace(t[n]);
        }
        SplitFromBoundary(s, i + n);
      }
    }
  }

  /** The count is 0 exactly when the text is empty or all whitespace. */
  lemma {:induction false} WordCountZeroIffBlank(s: string)
    ensures WordCount(s) == 0 <==> forall i :: 0 <= i < |s| ==> IsSpace(s[i])
    decreases |s|
  {
    if s != [] && IsSpace(s[0]) {
      WordCountZeroIffBlank(s[1..]);
      assert forall i :: 1 <= i < |s| ==> s[i] == s[1..][i - 1];
    }
  }

  /** Dropping the first k characters of a run moves them out of NonSpace unchanged. */
  lemma {:induction false} NonSpaceOfRun(s: string, k: nat)
    requires k <= |s|
    requires forall i :: 0 <= i < k ==> !IsSpace(s[i])
    ensures NonSpace(s) == s[..k] + NonSpace(s[k..])
    decreases k
  {
    if k > 0 {
      NonSpaceOfRun(s[1..], k - 1);
      assert s[1..][k - 1..] == s[k..];
      assert s[..k] == [s[0]] + s[1..][..k - 1];
    }
  }

  /** Tokenising loses only whitespace: the words, put together, are the non-space characters of s. */
  lemma {:induction false} SplitKeepsText(s: string)
    ensures Concat(Split(s)) == NonSpace(s)
    decreases |s|
  {
    if s != [] {
      if IsSpace(s[0]) {
        SplitKeepsText(s[1..]);
      } else {
        var n := RunLength(s);
        SplitKeepsText(s[n..]);
        NonSpaceOfRun(s, n);
        assert ([s[..n]] + Split(s[n..]))[1..] == Split(s[n..]);
      }
    }
  }

  /** A run that ends at the end of a: a separating whitespace character does not extend it. */
  lemma RunLengthBeforeSpace(a: string, c: char, b: string)
    requires IsSpace(c)
    ensures RunLength(a + [c] + b) == RunLength(a)
  {
    var s := a + [c] + b;
    assert forall i :: 0 <= i < |a| ==> s[i] == a[i];
    assert s[|a|] == c;
  }

  /** Splitting text glued with a whitespace character splits each side separately. */
  lemma {:induction false} SplitAroundSpace(a: string, c: char, b: string)
    requires IsSpace(c)
    ensures Split(a + [c] + b) == Split(a) + Split(b)
    decreases |a|
  {
    var s := a + [c] + b;
    if a == [] {
      assert s[1..] == b;
    } else if IsSpace(a[0]) {
      assert s[1..] == a[1..] + [c] + b;
      SplitAroundSpace(a[1..], c, b);
    } else {
      var n := RunLength(a);
      SplitAroundSpace(a[n..], c, b);
      SplitFirstRun(a, c, b);
    }
  }

  /** When a starts with a word, that word is also the first word of a + [c] + b. */
  lemma SplitFirstRun(a: string, c: char, b: string)
    requires IsSpace(c) && a != [] && !IsSpace(a[0])
    ensures Split(a + [c] + b) == [a[..RunLength(a)]] + Split(a[RunLength(a)..] + [c] + b)
    ensures Split(a) == [a[..RunLength(a)]] + Split(a[RunLength(a)..])
  {
    var s, n := a + [c] + b, RunLength(a);
    RunLengthBeforeSpace(a, c, b);
    assert s[..n] == a[..n];
    assert s[n..] == a[n..] + [c] + b;
  }

  /** ' '.join(xs): the parts in turn with one space between neighbours. */
  function JoinWithSpace(xs: seq<string>): (j: string)
    ensures |j| == |Concat(xs)| + (if xs == [] then 0 else |xs| - 1)
    ensures xs != [] ==> j[..|xs[0]|] == xs[0]
    decreases |xs|
  {
    if xs == [] then []
    else if |xs| == 1 then xs[0]
    else xs[0] + " " + JoinWithSpace(xs[1..])
  }

  /** The words of each text in turn. */
  function SplitEach(xs: seq<string>): seq<string>
    decreases |xs|
  {
    if xs == [] then [] else Split(xs[0]) + SplitEach(xs[1..])
  }

  /** Joining with single spaces merges no two words: the joined text has the words of each part, in order. */
  lemma {:induction false} SplitJoin(xs: seq<string>)
    ensures Split(JoinWithSpace(xs)) == SplitEach(xs)
    decreases |xs|
  {
    if |xs| == 1 {
      assert SplitEach(xs) == Split(xs[0]) + SplitEach([]);
    } else if |xs| > 1 {
      SplitJoin(xs[1..]);
      SplitAroundSpace(xs[0], ' ', JoinWithSpace(xs[1..]));
    }
  }
}

=== FILE: views.dfy ===
/**
 * The data behind the dashboard's panels (app.py): the year-range filter every
 * panel applies, the four group counts or texts, the sample, the total, and how
 * main wires them to the loaded table and the slider.
 */
module Views {
  import opened Records
  import opened Seqs
  import opened Text
  import opened Counting

  /** The year column. */
  function Years(rows: seq<Row>): seq<int> {
    seq(|rows|, i requires 0 <= i < |rows| => rows[i].year)
  }

  /** The journal column. */
  function Journals(rows: seq<Row>): seq<Option<string>> {
    seq(|rows|, i requires 0 <= i < |rows| => rows[i].journal)
  }

  /** The source_x column. */
  function Sources(rows: seq<Row>): seq<Option<string>> {
    seq(|rows|, i requires 0 <= i < |rows| => rows[i].source)
  }

  /** The title column (never missing after cleaning, so dropna() leaves it whole). */
  function Titles(rows: seq<Row>): seq<string> {
    seq(|rows|, i requires 0 <= i < |rows| => rows[i].title)
  }

  /** df[(df['year'] >= lo) & (df['year'] <= hi)]: the rows whose year lies in [lo, hi], in order. */
  function FilterByYear(rows: seq<Row>, lo: int, hi: int): (r: seq<Row>)
    ensures forall x :: x in r <==> x in rows && lo <= x.year <= hi
    decreases |rows|
  {
    if rows == [] then []
    else
      var p, x := rows[..|rows| - 1], rows[|rows| - 1];
      assert rows == p + [x];
      FilterByYear(p, lo, hi) + (if lo <= x.year <= hi then [x] else [])
  }

  /** The filter keeps the selected rows in the table's order. */
  lemma {:induction false} FilterByYearIsSubsequence(rows: seq<Row>, lo: int, hi: int)
    ensures IsSubsequence(FilterByYear(rows, lo, hi), rows)
    decreases |rows|
  {
    if rows == [] {
      SubsequenceOfEmpty(rows);
    } else {
      var p, x := rows[..|rows| - 1], rows[|rows| - 1];
      assert rows == p + [x];
      FilterByYearIsSubsequence(p, lo, hi);
      FilterByYearSnoc(p, x, lo, hi);
      SubsequenceSnoc(FilterByYear(p, lo, hi), p, x, lo <= x.year <= hi);
    }
  }

  /** The filter keeps every occurrence of an in-range row and none of the others. */
  lemma {:induction false} FilterByYearCounts(rows: seq<Row>, lo: int, hi: int)
    ensures forall x :: multiset(FilterByYear(rows, lo, hi))[x] == if lo <= x.year <= hi then multiset(rows)[x] else 0
    decreases |rows|
  {
    if rows != [] {
      var p, x := rows[..|rows| - 1], rows[|rows| - 1];
      assert rows == p + [x];
      FilterByYearCounts(p, lo, hi);
      FilterByYearSnoc(p, x, lo, hi);
    }
  }

  /** When every row is in range, the filter returns the table unchanged. */
  lemma {:induction false} FilterKeepsAllInRange(rows: seq<Row>, lo: int, hi: int)
    requires forall i :: 0 <= i < |rows| ==> lo <= rows[i].year <= hi
    ensures FilterByYear(rows, lo, hi) == rows
    decreases |rows|
  {
    if rows != [] {
      var p, x := rows[..|rows| - 1], rows[|rows| - 1];
      assert rows == p + [x];
      FilterKeepsAllInRange(p, lo, hi);
      FilterByYearSnoc(p, x, lo, hi);
    }
  }

  /**
   * A one-year range [y, y] keeps exactly the rows of year y: as many rows as
   * the year column holds y.
   */
  lemma {:induction false} SingleYearFilter(rows: seq<Row>, y: int)
    ensures |FilterByYear(rows, y, y)| == multiset(Years(rows))[y]
    decreases |rows|
  {
    if rows != [] {
      var p, x := rows[..|rows| - 1], rows[|rows| - 1];
      assert rows == p + [x];
      SingleYearFilter(p, y);
      YearsSnoc(p, x);
      FilterByYearSnoc(p, x, y, y);
    }
  }

  /** One more row at the end of the table is kept or not on its own year. */
  lemma FilterByYearSnoc(p: seq<Row>, x: Row, lo: int, hi: int)
    ensures FilterByYear(p + [x], lo, hi) == FilterByYear(p, lo, hi) + (if lo <= x.year <= hi then [x] else [])
  {
    assert (p + [x])[..|p|] == p;
  }

  lemma YearsSnoc(p: seq<Row>, x: Row)
    ensures multiset(Years(p + [x]))[x.year] == multiset(Years(p))[x.year] + 1
    ensures forall y :: y != x.year ==> multiset(Years(p + [x]))[y] == multiset(Years(p))[y]
  {
    assert Years(p + [x]) == Years(p) + [x.year];
  }

  /** (int(df['year'].min()), int(df['year'].max())); None on an empty table, where int(nan) raises. */
  function YearSpan(table: seq<Row>): (span: Option<(int, int)>)
    ensures span.None? <==> table == []
    ensures span.Some? ==> forall i :: 0 <= i < |table| ==> span.value.0 <= table[i].year <= span.value.1
    ensures span.Some? ==> exists i :: 0 <= i < |table| && table[i].year == span.value.0
    ensures span.Some? ==> exists i :: 0 <= i < |table| && table[i].year == span.value.1
    decreases |table|
  {
    if table == [] then None
    else
      var p, y := table[..|table| - 1], table[|table| - 1].year;
      match YearSpan(p)
      case None => Some((y, y))
      case Some((lo, hi)) =>
        var lo', hi' := if y < lo then y else lo, if y > hi then y else hi;
        assert forall i :: 0 <= i < |p| ==> table[i] == p[i];
        Some((lo', hi'))
  }

  /** The slider's default, the table's own year span, selects the whole table. */
  lemma FullSpanKeepsAll(table: seq<Row>)
    requires YearSpan(table).Some?
    ensures FilterByYear(table, YearSpan(table).value.0, YearSpan(table).value.1) == table
  {
    FilterKeepsAllInRange(table, YearSpan(table).value.0, YearSpan(table).value.1);
  }

  /** plot_publications_per_year: yearly counts of the selected rows, in ascending year order. */
  function PublicationsPerYear(df: seq<Row>, lo: int, hi: int): (t: seq<(int, nat)>)
    ensures IsCountTable(t, Years(FilterByYear(df, lo, hi)))
    ensures KeysIncreasing(t)
    ensures Sum(t) == |FilterByYear(df, lo, hi)|
    ensures forall i :: 0 <= i < |t| ==> lo <= t[i].0 <= hi
  {
    var years := Years(FilterByYear(df, lo, hi));
    var counts := CountValues(years);
    var t := SortByKey(counts);
    SortByKeySorted(counts);
    CountTableReordered(counts, t, years);
    SelectedYearsInRange(df, lo, hi);
    t
  }

  /** Every year in the selected rows lies in the selected range. */
  lemma SelectedYearsInRange(df: seq<Row>, lo: int, hi: int)
    ensures forall y :: y in Years(FilterByYear(df, lo, hi)) ==> lo <= y <= hi
  {
    var rows := FilterByYear(df, lo, hi);
    forall y | y in Years(rows) ensures lo <= y <= hi {
      var k :| 0 <= k < |rows| && Years(rows)[k] == y;
      assert rows[k] in rows;
    }
  }

  /** Each bar of the yearly chart is the number of rows a one-year selection shows. */
  lemma YearBarIsSingleYearSelection(df: seq<Row>, lo: int, hi: int, i: nat)
    requires i < |PublicationsPerYear(df, lo, hi)|
    ensures PublicationsPerYear(df, lo, hi)[i].1
         == |FilterByYear(FilterByYear(df, lo, hi), PublicationsPerYear(df, lo, hi)[i].0, PublicationsPerYear(df, lo, hi)[i].0)|
  {
    SingleYearFilter(FilterByYear(df, lo, hi), PublicationsPerYear(df, lo, hi)[i].0);
  }

  /**
   * plot_top_journals: value_counts().head(10) of the journal column of the
   * selected rows. Missing journals form no group; ties are in no promised order.
   */
  function TopJournals(df: seq<Row>, lo: int, hi: int): (t: seq<(string, nat)>)
    ensures |t| <= 10
    ensures DistinctKeys(t)
    ensures forall i :: 0 <= i < |t| ==>
      t[i].1 == multiset(Journals(FilterByYear(df, lo, hi)))[Some(t[i].0)] && t[i].1 > 0
    ensures CountsNonIncreasing(t)
    ensures forall j :: Some(j) in Journals(FilterByYear(df, lo, hi)) && !HasKey(t, j) ==>
      |t| == 10 && forall i :: 0 <= i < |t| ==> t[i].1 >= multiset(Journals(FilterByYear(df, lo, hi)))[Some(j)]
  {
    TopCounts(Journals(FilterByYear(df, lo, hi)), 10)
  }

  /**
   * plot_source_distribution: value_counts() of the source_x column of the
   * selected rows, every source (no cap), most frequent first.
   */
  function SourceDistribution(df: seq<Row>, lo: int, hi: int): (t: seq<(string, nat)>)
    ensures DistinctKeys(t)
    ensures forall i :: 0 <= i < |t| ==>
      t[i].1 == multiset(Sources(FilterByYear(df, lo, hi)))[Some(t[i].0)] && t[i].1 > 0
    ensures forall s :: Some(s) in Sources(FilterByYear(df, lo, hi)) ==> HasKey(t, s)
    ensures CountsNonIncreasing(t)
    ensures Sum(t) + multiset(Sources(FilterByYear(df, lo, hi)))[None] == |FilterByYear(df, lo, hi)|
  {
    ValueCounts(Sources(FilterByYear(df, lo, hi)))
  }

  /**
   * plot_wordcloud's input: the titles of the selected rows joined with single
   * spaces. No two titles run together: its words are each title's words in turn.
   */
  function WordCloudText(df: seq<Row>, lo: int, hi: int): (text: string)
    ensures Split(text) == SplitEach(Titles(FilterByYear(df, lo, hi)))
  {
    var titles := Titles(FilterByYear(df, lo, hi));
    SplitJoin(titles);
    JoinWithSpace(titles)
  }

  /** The "Sample Data" table and the "Total papers" line. */
  datatype Summary = Summary(sample: seq<Row>, total: nat)

  /** main: filtered_data.head(20) and len(filtered_data). */
  function SampleAndTotal(df: seq<Row>, lo: int, hi: int): (s: Summary)
    ensures s.total == |FilterByYear(df, lo, hi)|
    ensures |s.sample| == if s.total < 20 then s.total else 20
    ensures s.sample == FilterByYear(df, lo, hi)[..|s.sample|]
    ensures IsSubsequence(s.sample, df)
    ensures forall x :: x in s.sample ==> x in df && lo <= x.year <= hi
  {
    var filtered := FilterByYear(df, lo, hi);
    var n := if |filtered| < 20 then |filtered| else 20;
    FilterByYearIsSubsequence(df, lo, hi);
    PrefixIsSubsequence(filtered, n);
    SubsequenceTransitive(filtered[..n], filtered, df);
    Summary(filtered[..n], |filtered|)
  }

  /** What main shows. */
  datatype Page =
    | LoadFailed                  // load_data() returned None: "Failed to load data"
    | ErrorShown                  // int(nan) on an empty table reached the catch-all before any panel
    | CloudFailed(                // WordCloud.generate raised after the first two panels were drawn
        yearly: seq<(int, nat)>,
        journals: seq<(string, nat)>)
    | Rendered(
        yearly: seq<(int, nat)>,
        journals: seq<(string, nat)>,
        cloudText: string,
        sources: seq<(string, nat)>,
        summary: Summary)

  /** The slider's position: the chosen range, or by default the table's year span. */
  function SelectedRange(df: seq<Row>, selection: Option<(int, int)>): (r: (int, int))
    requires df != []
    ensures selection.Some? ==> r == selection.value
    ensures selection.None? ==> r.0 <= r.1 && FilterByYear(df, r.0, r.1) == df
  {
    FullSpanKeepsAll(df);
    if selection.Some? then selection.value else YearSpan(df).value
  }

  /** WordCloud.generate raises on a text without words, and on any text `rejects` names. */
  predicate CloudRaises(text: string, rejects: string -> bool): (raises: bool)
    ensures (forall i :: 0 <= i < |text| ==> IsSpace(text[i])) ==> raises
  {
    WordCountZeroIffBlank(text);
    Split(text) == [] || rejects(text)
  }

  /**
   * main, given what load_data() returned, the slider's position (None while it
   * sits at its default, the table's year span) and which further texts the
   * WordCloud library rejects (for example texts made only of stop words or digits).
   */
  function Dashboard(loaded: Option<seq<Row>>, selection: Option<(int, int)>, rejects: string -> bool): (p: Page)
    ensures p.LoadFailed? <==> loaded.None?
    ensures p.ErrorShown? <==> loaded == Some([])
    ensures loaded.Some? && loaded.value != [] ==>
      var df := loaded.value;
      var (lo, hi) := SelectedRange(df, selection);
      && (p.CloudFailed? <==> CloudRaises(WordCloudText(df, lo, hi), rejects))
      && (p.CloudFailed? ==> p == CloudFailed(PublicationsPerYear(df, lo, hi), TopJournals(df, lo, hi)))
      && (p.Rendered? ==> p == Rendered(PublicationsPerYear(df, lo, hi), TopJournals(df, lo, hi),
                                        WordCloudText(df, lo, hi), SourceDistribution(df, lo, hi),
                                        SampleAndTotal(df, lo, hi)))
    ensures (p.CloudFailed? || p.Rendered?) && selection.None? ==> Sum(p.yearly) == |loaded.value|
    ensures p.Rendered? && selection.None? ==> p.summary.total == |loaded.value|
    ensures p.Rendered? && selection.Some? ==>
      p.summary.total == |FilterByYear(loaded.value, selection.value.0, selection.value.1)|
  {
    match loaded
    case None => LoadFailed
    case Some(df) =>
      if df == [] then ErrorShown
      else
        var (lo, hi) := SelectedRange(df, selection);
        var yearly, journals := PublicationsPerYear(df, lo, hi), TopJournals(df, lo, hi);
        var text := WordCloudText(df, lo, hi);
        if CloudRaises(text, rejects) then CloudFailed(yearly, journals)
        else Rendered(yearly, journals, text, SourceDistribution(df, lo, hi), SampleAndTotal(df, lo, hi))
  }

  /**
   * A range that selects no rows (a gap in the table's years) leaves the word
   * cloud without words: the page stops after the first two panels with the error.
   */
  lemma EmptySelectionStopsAtCloud(df: seq<Row>, lo: int, hi: int, rejects: string -> bool)
    requires df != [] && FilterByYear(df, lo, hi) == []
    ensures Dashboard(Some(df), Some((lo, hi)), rejects) == CloudFailed(PublicationsPerYear(df, lo, hi), TopJournals(df, lo, hi))
    ensures PublicationsPerYear(df, lo, hi) == [] && TopJournals(df, lo, hi) == []
  {
    EmptySelectionPanels(df, lo, hi, rejects);
    assert SelectedRange(df, Some((lo, hi))) == (lo, hi);
  }

  /** The panels of an empty selection: no yearly bars, no journals, a word cloud without words. */
  lemma EmptySelectionPanels(df: seq<Row>, lo: int, hi: int, rejects: string -> bool)
    requires FilterByYear(df, lo, hi) == []
    ensures CloudRaises(WordCloudText(df, lo, hi), rejects)
    ensures PublicationsPerYear(df, lo, hi) == [] && TopJournals(df, lo, hi) == []
  {
    assert Titles(FilterByYear(df, lo, hi)) == [];
    assert Years(FilterByYear(df, lo, hi)) == [];
    assert Journals(FilterByYear(df, lo, hi)) == [];
  }
}
